=== FILE: README.md ===
# City/country cache loader — Dafny model

The modelled program is a one-shot batch job. It pages every `City` row out of
the relational `world` database, flattens each city, its `Country` and the
country's languages into one `CityCountry` document, and stores each document
in Redis under the decimal string of the city id. It then looks up ten fixed
ids in Redis and in the database, timing each loop.

This project models the sequential core of that job over plain data:

- the city table is a fixed `seq<City>` in query order (`CityDao`);
- the paging loop of `fetchData` (`Pagination`);
- the `Country` entity, its getter/setter pairs and the ordinal-persisted
  `Continent` enum (`Countries`, `Continents`);
- the denormalization of `transformData`, replayed as the same sequence of
  setter calls (`CacheRecords`, `Denormalize`);
- the Redis write loop over a `map<string, string>` store, with serialization
  as a parameter that may fail (`CacheWriter`);
- the two lookup loops and `main`'s sequencing (`Benchmark`, `Pipeline`).

Java's widths are explicit: `Integer` and `Short` fields are `Int32`/`Int16`
newtypes, `Math.toIntExact` is `JavaInt.ToIntExact`, and `int` wrap-around is
`JavaInt.Wrap`. `BigDecimal` values are `Decimal(unscaled, scale)`; they are
only copied. Exceptions that escape are `Err` values of `Results.Result`.
Serialization (`encode`, `decode`) and the stores are parameters.

Three behaviours of the code are worth knowing, and the model follows them:

- A missing cache key is not a separate outcome. `get` returns `null`, and
  `readValue(null, ...)` throws an `IllegalArgumentException` that the `catch`
  does not handle. So the lookup loop stops there (`Benchmark.TestRedisData`).
- The record has one `population` property, and it keeps the country's value
  (`Denormalize.FlattenOnto`).
- Records that fail to encode are not counted; the code only prints a stack
  trace.

## Model

| member | source | states |
|---|---|---|
| Continents.Ordinal | src/main/java/com/javarush/domain/Continent.java:3-10 | the ordinal is the declaration position: it lies in 0..6 and `Declared` holds the variant at that index |
| Continents.FromOrdinal | src/main/java/com/javarush/domain/Country.java:25-28 | a persisted ordinal reads back as a variant exactly when it is in 0..6, and that variant's ordinal is the value read |
| Continents.OrdinalRoundTrip | src/main/java/com/javarush/domain/Continent.java:3-10 | reading back a variant's ordinal gives that variant |
| Continents.DeclaredIsEnumeration | src/main/java/com/javarush/domain/Continent.java:4-10 | there are exactly seven variants, each at exactly one position of the declaration order |
| Continents.Value | src/main/java/com/javarush/domain/Continent.java:4-20 | `getValue()` starts with the decimal digit of the variant's ordinal. The next characters are `E-` for EUROPE (`"1E-EUROPE"`), and `-` for every other variant |
| Continents.ValueInjective | src/main/java/com/javarush/domain/Continent.java:4-10 | the seven labels are pairwise distinct |
| Countries.Set | src/main/java/com/javarush/domain/Country.java:66-200 | after a setter call, its getter returns the value passed and every other getter returns what it returned before |
| Countries.SetGet | src/main/java/com/javarush/domain/Country.java:66-200 | setting a property to what its getter returns leaves the country unchanged |
| Countries.SetSet | src/main/java/com/javarush/domain/Country.java:66-200 | of two calls to the same setter, only the later one is visible |
| Countries.SetCommutes | src/main/java/com/javarush/domain/Country.java:66-200 | setters of different properties can be called in either order |
| Countries.ContinentColumn | src/main/java/com/javarush/domain/Country.java:25-28 | the `continent` column holds a value in 0..6 that reads back as the country's continent |
| CityDao.GetItems | src/main/java/com/javarush/dao/CityDAO.java:16-21 | `getItems` fails on a negative offset or count; otherwise it returns at most `count` rows, exactly `min(count, n - offset)` of them, each row `offset + j` of the table at position `j`, and none when `offset >= n` |
| CityDao.GetTotalCount | src/main/java/com/javarush/dao/CityDAO.java:23-28 | the count is the number of rows when that fits an `int`, and an `ArithmeticException` (never a wrapped value) otherwise |
| CityDao.Matching | src/main/java/com/javarush/dao/CityDAO.java:31-33 | the rows the `where c.id = :ID` clause selects are exactly the table rows with that id |
| CityDao.GetById | src/main/java/com/javarush/dao/CityDAO.java:30-35 | a successful `getById` returns a table row with the requested id, country attached |
| CityDao.GetByIdOutcomes | src/main/java/com/javarush/dao/CityDAO.java:34 | `getSingleResult` fails with `NoResultException` exactly when no row has the id, with `NonUniqueResultException` exactly when two rows do, and in no other way |
| CityDao.GetByIdFindsRow | src/main/java/com/javarush/dao/CityDAO.java:30-35 | with a primary key, looking up any row's id returns that row |
| Pagination.FetchPages | src/main/java/com/javarush/Main.java:91-94 | for any page size the loop reassembles the whole table in order, with no gap or repeat, after ceil(n / size) page requests |
| Pagination.FetchData | src/main/java/com/javarush/Main.java:85-98 | `fetchData` with the page counter corrected so it cannot wrap: it returns the whole table after ceil(n / 500) pages whenever the count fits an `int`, and fails with the count's `ArithmeticException` otherwise |
| Pagination.FetchFromAsWritten | src/main/java/com/javarush/Main.java:92-93 | the loop as written, with the `int` counter wrapping: when it succeeds from offset `i`, `i` is non-negative and the result is the table from row `i` on; its only failure is the page request's `IllegalArgumentException` |
| Pagination.FetchDataAsWritten | src/main/java/com/javarush/Main.java:90-94 | `fetchData` as written: an oversized count fails with `ArithmeticException`, and any result it returns is the whole table |
| Pagination.AsWrittenAgrees | src/main/java/com/javarush/Main.java:92 | with the `int` counter as written, tables of up to 2147483500 rows are still fetched whole |
| Pagination.AsWrittenWraps | src/main/java/com/javarush/Main.java:92 | for a count in (2147483500, 2147483647], which the count accepts, the `int` counter wraps to a negative offset and the run fails |
| JavaInt.ToIntExact | src/main/java/com/javarush/dao/CityDAO.java:27 | `Math.toIntExact` keeps a value that fits an `int` and fails otherwise |
| JavaInt.Wrap | src/main/java/com/javarush/Main.java:92 | an `int` expression evaluates to the unique value in range congruent to its mathematical value modulo 2^32 |
| CacheRecords.Assign | src/main/java/com/javarush/Main.java:103-124 | each `CityCountry` setter called on the record sets its own property to the value passed and leaves the other ten as they were |
| Denormalize.LanguagesOf | src/main/java/com/javarush/Main.java:116-124 | the language set holds the (language, official, percentage) triple of every country language and nothing else |
| Denormalize.LanguagesOfSize | src/main/java/com/javarush/Main.java:116-124 | the language set has exactly as many entries as the country has language rows, so never more |
| Denormalize.FlattenOnto | src/main/java/com/javarush/Main.java:102-126 | after the setter calls, id, name and district are the city's; code, alternative code, name, continent, region and surface area are the country's; `population` is the country's population; languages are the mapped set |
| Denormalize.SettersBuildFlatten | src/main/java/com/javarush/Main.java:101-126 | the setter sequence builds the field-by-field record `Flatten(city)` whatever object it starts from, so no property is left unset |
| Denormalize.CityPopulationOverwritten | src/main/java/com/javarush/Main.java:105-113 | when a city's population differs from its country's, the record the setter calls build, from any starting record, does not carry the city's population: the second `setPopulation` overwrites the first |
| Denormalize.TransformData | src/main/java/com/javarush/Main.java:100-127 | `transformData` returns one record per city, in the same order, and record k is the field-by-field flattening of city k |
| Denormalize.TransformDataFromFresh | src/main/java/com/javarush/Main.java:101-126 | record k of `transformData` is exactly what the setter calls leave on a `new CityCountry()` filled from city k |
| Denormalize.TransformDataAppend | src/main/java/com/javarush/Main.java:100-127 | transforming a concatenation of pages is concatenating their transforms |
| Denormalize.TransformKeepsIds | src/main/java/com/javarush/Main.java:103 | on a table with a primary key, the records have pairwise distinct ids |
| Text.IntToString | src/main/java/com/javarush/Main.java:135 | `String.valueOf(int)` yields the canonical decimal form: a `-` exactly for negative values, then digits without a leading zero, which read back as the same integer |
| CacheWriter.PutWrites | src/main/java/com/javarush/Main.java:134-138 | one iteration: on success the store gains the record's key holding its encoding; on an encoding failure the store is unchanged; every other key keeps its value |
| CacheWriter.PushAllSnoc | src/main/java/com/javarush/Main.java:133-139 | the loop handles records in list order: running it over a batch followed by one more record is one more iteration on the batch's result |
| CacheWriter.KeyInjective | src/main/java/com/javarush/Main.java:135 | distinct ids are stored under distinct keys |
| CacheWriter.PushAllKeys | src/main/java/com/javarush/Main.java:133-139 | after the write loop the store's keys are the old keys plus exactly the keys of the records that encoded |
| CacheWriter.PushAllKeepsOthers | src/main/java/com/javarush/Main.java:133-139 | a key that no encoded record writes keeps its old value |
| CacheWriter.PushAllLastWriteWins | src/main/java/com/javarush/Main.java:133-139 | the key of an encoded record holds that record's encoding unless a later encoded record has the same id |
| CacheWriter.PushAllSkipsFailure | src/main/java/com/javarush/Main.java:134-138 | a record that fails to encode leaves the store exactly as if it were not in the batch |
| CacheWriter.PushToRedis | src/main/java/com/javarush/Main.java:130-141 | the imperative loop produces the left-to-right fold of `set`s, with the key, preservation and last-write-wins facts above |
| Benchmark.TestRedisData | src/main/java/com/javarush/Main.java:143-155 | one `get` per id in list order; a decode failure yields `DecodeFailed` and the loop goes on; a missing key stops the loop right after its `get` with an `IllegalArgumentException` |
| Benchmark.TestMysqlData | src/main/java/com/javarush/Main.java:157-166 | one `getById` per id in list order; the first failing lookup ends the loop with its exception, otherwise result k is the lookup of id k |
| Benchmark.SourceLookupsSucceed | src/main/java/com/javarush/Main.java:160-161 | on a table with a primary key, every lookup of an id the table holds succeeds and returns the row of that id |
| Pipeline.Run | src/main/java/com/javarush/Main.java:168-193 | `main` with the corrected page counter: the stages run in order; an oversized count aborts before any write; otherwise the cache is the fold of all records, and the run succeeds exactly when every benchmark key is in the cache and every table lookup succeeds |
| Pipeline.RunBenchmark | src/main/java/com/javarush/Main.java:179-187 | when the run succeeds, `main`'s ten fixed ids give exactly ten cache gets and ten table lookups |
| Pipeline.CacheHoldsEveryCity | src/main/java/com/javarush/Main.java:170-172 | on a table with a primary key, after the write stage, every city whose record encodes is stored under its id with that record's encoding |
| Pipeline.CacheLookupRoundTrip | src/main/java/com/javarush/Main.java:146-149 | on a table with a primary key, when a city's record encodes and decoding inverts encoding, the cache lookup of that city's id decodes to exactly its flattened record |

## Findings

| source | as written | input that shows it | evidently intended | confidence | as-written member | corrected member |
|---|---|---|---|---|---|---|
| src/main/java/com/javarush/Main.java:92 | `i += step` on an `int` counter compared with `i < totalCount` | a count of 2147483501 to 2147483647 rows: after the page at offset 2147483500 the counter becomes -2147483296, still below the count, and `getItems` receives a negative offset and throws | the loop ends after the last page and returns every row | low; not executed; it needs more than 2147483500 rows in the one `ArrayList`, close to that list's capacity limit, and a very large heap; for the top few counts the list may reach the JVM array limit before the counter wraps | Pagination.AsWrittenWraps | Pagination.FetchData |

## Left out

- Hibernate session factory, sessions, transactions and fetch modes: the table is one fixed sequence that stays the same for a whole run. Lazy loading is not modelled: a `City` value always carries its `Country`, and a `Country` value always carries its languages.
- The Redis client, its connections and their release: the store is a `map<string, string>` passed in and returned.
- Jackson serialization: `encode` and `decode` are parameters that may fail. No JSON format is modelled.
- Wall-clock timing and the printed report of `main`, because they are nondeterministic output.
- The `countryDAO.getAll()` call at the start of `fetchData`, because its result is unused. It only warms the session cache.
- `null` values: every reference is present, except a country's capital (see the Countries.Set line below), and `Integer` fields are plain `Int32` values.
- `City.java`, `CountryLanguage.java`, `CityCountry.java`, `Language.java` and `CountryDAO.java` are not part of this model. Their datatypes hold only the accessors `Main.java` uses, plus the `Country` fields listed in `Country.java`.
- Denormalize.LanguagesOfSize: uses value equality of the three copied fields. If the Java `Language` class keeps identity equality, the Java set is never smaller than the source set either.
- Benchmark.TestRedisData: the decoded record is returned as the lookup outcome, although the code discards it.
- Continents.FromOrdinal: returns `None` for a stored ordinal outside 0..6. It does not model which exception Hibernate raises in that case.
- Pipeline.Run: states the run's shape, not the lookup contents. Those contents are stated by `Pipeline.CacheLookupRoundTrip` and `Benchmark.SourceLookupsSucceed`.
- Pagination.FetchData: models the corrected counter. For a count in (2147483500, 2147483647], the loop as written throws at the page request instead (`Pagination.AsWrittenWraps`).
- Pipeline.Run: uses the corrected `Pagination.FetchData`, so for a count in (2147483500, 2147483647] it writes every record. `main` as written fails at the page request and writes nothing.
- Page order is an assumption: `rows` is one fixed order that every page query reads. `select c from City c` has no `order by`. The job's one transaction gives a consistent snapshot, but not a stable order, so separate offset/limit queries are not guaranteed to be disjoint and complete. `Pagination.FetchPages` relies on this assumption for "no gap or repeat".
- Countries.Set: the capital property (`getCity`/`setCity`) holds the capital city's id rather than a `City` object. Its `None` stands for a country without a capital, the one `null` the model keeps.
- CityDao.GetByIdOutcomes: the `NonUniqueResultException` branch is reachable only on a table that breaks the city primary key. Hibernate's de-duplication of managed instances is not modelled: a duplicated id counts as two rows.

=== FILE: benchmark.dfy ===
/** The two lookup loops `main` times: `testRedisData` against the cache and
    `testMysqlData` against the table. Only what they do is modelled (which
    lookups, in which order, and when they stop), not how long they take.
 */
module Benchmark {
  import opened Results
  import opened JavaInt
  import opened Cities
  import opened CityDao
  import opened CacheRecords
  import opened CacheWriter

  /** Deserialization, a parameter that may fail (a `JsonProcessingException`). */
  type Decoder = string -> Option<CityCountry>

  /** What one cache lookup produced; the code discards the value itself. */
  datatype Lookup = Decoded(record: CityCountry) | DecodeFailed

  /** The ids `main` looks up in both stores. */
  const BenchmarkIds: seq<Int32> := [3, 2545, 123, 4, 189, 89, 3458, 1189, 10, 102]

  function KeysOf(ids: seq<Int32>): (keys: seq<string>)
    ensures |keys| == |ids|
    ensures forall k :: 0 <= k < |ids| ==> keys[k] == Key(ids[k])
  {
    seq(|ids|, k requires 0 <= k < |ids| => Key(ids[k]))
  }

  function DecodeOutcome(decode: Decoder, value: string): Lookup {
    match decode(value)
    case None => DecodeFailed
    case Some(record) => Decoded(record)
  }

  predicate AllStored(store: Store, ids: seq<Int32>) {
    forall k :: 0 <= k < |ids| ==> Key(ids[k]) in store
  }

  /** `testRedisData`: one `get` per id, in list order. A value that does not
      decode is caught and the loop goes on. A missing key makes `get` return
      `null`, and `readValue(null, ...)` throws an `IllegalArgumentException`
      that the `catch` does not cover: the loop stops right after that `get`. */
  method TestRedisData(store: Store, ids: seq<Int32>, decode: Decoder)
    returns (gets: seq<string>, r: Result<seq<Lookup>>)
    ensures r.Ok? <==> AllStored(store, ids)
    ensures r.Err? ==> r.error == IllegalArgument
    ensures r.Ok? ==> gets == KeysOf(ids)
    ensures r.Ok? ==> |r.value| == |ids|
    ensures r.Ok? ==> forall k :: 0 <= k < |ids| ==> r.value[k] == DecodeOutcome(decode, store[Key(ids[k])])
    ensures r.Err? ==> exists m :: 0 <= m < |ids| && Key(ids[m]) !in store
                                && AllStored(store, ids[..m]) && gets == KeysOf(ids[..m + 1])
  {
    gets := [];
    var outcomes: seq<Lookup> := [];
    for i := 0 to |ids|
      invariant gets == KeysOf(ids[..i])
      invariant AllStored(store, ids[..i])
      invariant |outcomes| == i
      invariant forall k :: 0 <= k < i ==> outcomes[k] == DecodeOutcome(decode, store[Key(ids[k])])
    {
      var key := Key(ids[i]);
      gets := gets + [key];
      assert gets == KeysOf(ids[..i + 1]);
      if key !in store {
        assert !AllStored(store, ids);
        assert Key(ids[i]) !in store && AllStored(store, ids[..i]) && gets == KeysOf(ids[..i + 1]);
        return gets, Err(IllegalArgument);
      }
      outcomes := outcomes + [DecodeOutcome(decode, store[key])];
    }
    assert ids[..|ids|] == ids;
    r := Ok(outcomes);
  }

  /** `testMysqlData`: `getById` for each id in list order; the first lookup
      that throws ends the loop with its exception. */
  method TestMysqlData(rows: seq<City>, ids: seq<Int32>) returns (r: Result<seq<City>>)
    ensures r.Ok? <==> forall k :: 0 <= k < |ids| ==> GetById(rows, ids[k]).Ok?
    ensures r.Ok? ==> |r.value| == |ids|
    ensures r.Ok? ==> forall k :: 0 <= k < |ids| ==> r.value[k] == GetById(rows, ids[k]).value
    ensures r.Err? ==> exists m :: 0 <= m < |ids| && GetById(rows, ids[m]) == Err(r.error)
                                && forall k :: 0 <= k < m ==> GetById(rows, ids[k]).Ok?
  {
    var cities: seq<City> := [];
    for i := 0 to |ids|
      invariant forall k :: 0 <= k < i ==> GetById(rows, ids[k]).Ok?
      invariant |cities| == i
      invariant forall k :: 0 <= k < i ==> cities[k] == GetById(rows, ids[k]).value
    {
      var found := GetById(rows, ids[i]);
      if found.Err? {
        return Err(found.error);
      }
      cities := cities + [found.value];
    }
    r := Ok(cities);
  }

  /** Some row of the table carries `id`. */
  predicate HasRow(rows: seq<City>, id: Int32) {
    exists i :: 0 <= i < |rows| && rows[i].id == id
  }

  /** On a table with a primary key, every id it holds is found, so the
      source lookups of such ids all succeed, each returning the row of its id. */
  lemma SourceLookupsSucceed(rows: seq<City>, ids: seq<Int32>)
    requires UniqueIds(rows)
    requires forall k :: 0 <= k < |ids| ==> HasRow(rows, ids[k])
    ensures forall k :: 0 <= k < |ids| ==> GetById(rows, ids[k]).Ok?
    ensures forall k :: 0 <= k < |ids| ==> GetById(rows, ids[k]).value.id == ids[k]
  {
    forall k | 0 <= k < |ids| ensures GetById(rows, ids[k]).Ok? {
      var i :| 0 <= i < |rows| && rows[i].id == ids[k];
      GetByIdFindsRow(rows, i);
    }
  }
}

=== FILE: cache_writer.dfy ===
/** `Main.pushToRedis`: each record is serialized and stored under the decimal
    string of its id.

    The key-value store is a `map<string, string>`. Serialization is a
    parameter `encode` that may fail (`None` stands for a
    `JsonProcessingException`); a failure is caught inside the loop, so only
    that record is skipped. `PushAll` is the loop as a left-to-right fold and
    `PushToRedis` the imperative loop; the lemmas say what the fold leaves in
    the store.
 */
module CacheWriter {
  import opened Results
  import opened JavaInt
  import Text
  import opened CacheRecords

  type Store = map<string, string>
  type Encoder = CityCountry -> Option<string>

  /** `String.valueOf(id)`. */
  function Key(id: Int32): string {
    Text.IntToString(id as int)
  }

  /** Ids and keys are in one-to-one correspondence. */
  lemma KeyInjective(a: Int32, b: Int32)
    requires Key(a) == Key(b)
    ensures a == b
  {
    Text.IntToStringInjective(a as int, b as int);
  }

  /** One iteration: `set` on success, nothing on an encoding failure. */
  function Put(store: Store, r: CityCountry, encode: Encoder): Store {
    match encode(r)
    case None => store
    case Some(json) => store[Key(r.id) := json]
  }

  /** One iteration writes the record's key, or nothing when encoding fails;
      every other key keeps its value. */
  lemma PutWrites(store: Store, r: CityCountry, encode: Encoder)
    ensures encode(r).None? ==> Put(store, r, encode) == store
    ensures encode(r).Some? ==> Put(store, r, encode).Keys == store.Keys + {Key(r.id)}
    ensures encode(r).Some? ==> Put(store, r, encode)[Key(r.id)] == encode(r).value
    ensures forall key :: key in store && key != Key(r.id) ==> Put(store, r, encode)[key] == store[key]
  {
  }

  /** The whole loop over `data`, in list order. */
  function PushAll(store: Store, data: seq<CityCountry>, encode: Encoder): Store
    decreases |data|
  {
    if data == [] then store else Put(PushAll(store, data[..|data| - 1], encode), data[|data| - 1], encode)
  }

  /** Records are handled in list order: the loop over a batch followed by
      one more record is one more iteration on the batch's result. */
  lemma PushAllSnoc(store: Store, data: seq<CityCountry>, r: CityCountry, encode: Encoder)
    ensures PushAll(store, data + [r], encode) == Put(PushAll(store, data, encode), r, encode)
  {
    assert (data + [r])[..|data|] == data;
  }

  /** The keys of the records whose encoding succeeds. */
  function WrittenKeys(data: seq<CityCountry>, encode: Encoder): set<string> {
    set j | 0 <= j < |data| && encode(data[j]).Some? :: Key(data[j].id)
  }

  /** Record `j` is encoded and no later encoded record has its id. */
  predicate LastWrite(data: seq<CityCountry>, encode: Encoder, j: int) {
    && 0 <= j < |data|
    && encode(data[j]).Some?
    && forall k :: j < k < |data| && encode(data[k]).Some? ==> data[k].id != data[j].id
  }

  /** The keys of a non-empty batch: those of all but the last record, plus
      the last record's key when it encodes. */
  lemma WrittenKeysSnoc(data: seq<CityCountry>, encode: Encoder)
    requires |data| > 0
    ensures WrittenKeys(data, encode)
         == WrittenKeys(data[..|data| - 1], encode)
          + (if encode(data[|data| - 1]).Some? then {Key(data[|data| - 1].id)} else {})
  {
    var n := |data| - 1;
    var prefix := data[..n];
    var w := WrittenKeys(data, encode);
    var wp := WrittenKeys(prefix, encode);
    var last: set<string> := if encode(data[n]).Some? then {Key(data[n].id)} else {};
    forall key | key in w ensures key in wp + last {
      var j :| 0 <= j < |data| && encode(data[j]).Some? && Key(data[j].id) == key;
      if j < n {
        assert prefix[j] == data[j];
      }
    }
    forall key | key in wp ensures key in w {
      var j :| 0 <= j < |prefix| && encode(prefix[j]).Some? && Key(prefix[j].id) == key;
      assert data[j] == prefix[j];
    }
  }

  /** The store gains exactly the keys of successfully encoded records. */
  lemma {:induction false} PushAllKeys(store: Store, data: seq<CityCountry>, encode: Encoder)
    ensures PushAll(store, data, encode).Keys == store.Keys + WrittenKeys(data, encode)
    decreases |data|
  {
    if data != [] {
      PushAllKeys(store, data[..|data| - 1], encode);
      WrittenKeysSnoc(data, encode);
    }
  }

  /** Keys no record writes keep their previous value. */
  lemma {:induction false} PushAllKeepsOthers(store: Store, data: seq<CityCountry>, encode: Encoder, key: string)
    requires key in store
    requires key !in WrittenKeys(data, encode)
    ensures key in PushAll(store, data, encode)
    ensures PushAll(store, data, encode)[key] == store[key]
    decreases |data|
  {
    if data != [] {
      var n := |data| - 1;
      var prefix := data[..n];
      WrittenKeysSnoc(data, encode);
      PushAllKeepsOthers(store, prefix, encode, key);
    }
  }

  /** Last write wins: the key of an encoded record holds that record's
      encoding unless a later encoded record has the same id. */
  lemma {:induction false} PushAllLastWriteWins(store: Store, data: seq<CityCountry>, encode: Encoder, j: int)
    requires LastWrite(data, encode, j)
    ensures Key(data[j].id) in PushAll(store, data, encode)
    ensures PushAll(store, data, encode)[Key(data[j].id)] == encode(data[j]).value
    decreases |data|
  {
    var n := |data| - 1;
    var prefix := data[..n];
    if j < n {
      assert prefix[j] == data[j];
      assert LastWrite(prefix, encode, j) by {
        forall k | j < k < |prefix| && encode(prefix[k]).Some?
          ensures prefix[k].id != prefix[j].id
        {
          assert prefix[k] == data[k];
        }
      }
      PushAllLastWriteWins(store, prefix, encode, j);
      if encode(data[n]).Some? {
        assert data[n].id != data[j].id;
        if Key(data[n].id) == Key(data[j].id) {
          KeyInjective(data[n].id, data[j].id);
        }
      }
    }
  }

  /** Partial-failure tolerance: a record that fails to encode leaves the
      result exactly as if it were not in the batch. */
  lemma {:induction false} PushAllSkipsFailure(store: Store, data: seq<CityCountry>, encode: Encoder, i: int)
    requires 0 <= i < |data|
    requires encode(data[i]).None?
    ensures PushAll(store, data, encode) == PushAll(store, data[..i] + data[i + 1..], encode)
    decreases |data|
  {
    var n := |data| - 1;
    var prefix := data[..n];
    if i == n {
      assert data[..i] + data[i + 1..] == prefix;
    } else {
      var rest := data[..i] + data[i + 1..];
      var shorter := prefix[..i] + prefix[i + 1..];
      assert data[..i] == prefix[..i];
      assert data[i + 1..] == prefix[i + 1..] + [data[n]];
      assert rest == shorter + [data[n]];
      assert rest[..|rest| - 1] == shorter;
      assert prefix[i] == data[i];
      PushAllSkipsFailure(store, prefix, encode, i);
    }
  }

  /** The loop of `pushToRedis` on the store's current contents. */
  method PushToRedis(store: Store, data: seq<CityCountry>, encode: Encoder) returns (result: Store)
    ensures result == PushAll(store, data, encode)
    ensures result.Keys == store.Keys + WrittenKeys(data, encode)
    ensures forall key :: key in store && key !in WrittenKeys(data, encode) ==> key in result && result[key] == store[key]
    ensures forall j :: LastWrite(data, encode, j) ==> Key(data[j].id) in result && result[Key(data[j].id)] == encode(data[j]).value
  {
    result := store;
    for i := 0 to |data|
      invariant result == PushAll(store, data[..i], encode)
    {
      assert data[..i + 1][..i] == data[..i];
      match encode(data[i]) {
        case Some(json) => result := result[Key(data[i].id) := json];
        case None =>
      }
    }
    assert data[..|data|] == data;
    assert result == PushAll(store, data, encode);
    PushAllKeys(store, data, encode);
    forall key | key in store && key !in WrittenKeys(data, encode)
      ensures key in result && result[key] == store[key]
    {
      PushAllKeepsOthers(store, data, encode, key);
    }
    forall j | LastWrite(data, encode, j)
      ensures Key(data[j].id) in result && result[Key(data[j].id)] == encode(data[j]).value
    {
      PushAllLastWriteWins(store, data, encode, j);
    }
  }
}

=== FILE: city.dfy ===
/** The `City` entity: one row of the city table with its country attached. */
module Cities {
  import opened JavaInt
  import Countries

  /** A city always owns exactly one country (the job dereferences it unchecked). */
  datatype City = City(id: Int32, name: string, district: string, population: Int32, country: Countries.Country)

  /** The primary-key property of a table snapshot. */
  predicate UniqueIds(rows: seq<City>) {
    forall i, j :: 0 <= i < j < |rows| ==> rows[i].id != rows[j].id
  }
}

=== FILE: city_country.dfy ===
/** The denormalized cache document `CityCountry` and its `Language` entries.

    The record is filled by setters on a freshly constructed object, so its
    properties are modelled, like `Country`'s, as a lens: `Read(r, f)` is the
    getter of property `f` and `Assign(r, f, v)` its setter.
 */
module CacheRecords {
  import opened JavaInt
  import Continents
  import Countries

  datatype Language = Language(language: string, official: bool, percentage: Countries.Decimal)

  /** A single `population` property: both the city's and the country's
      population are written to it. */
  datatype CityCountry = CityCountry(
    id: Int32,
    name: string,
    district: string,
    population: Int32,
    countryCode: string,
    alternativeCountryCode: string,
    countryName: string,
    continent: Continents.Continent,
    countryRegion: string,
    countrySurfaceArea: Countries.Decimal,
    languages: set<Language>)

  datatype RecordField =
    | Id | Name | District | Population | CountryCode | AlternativeCountryCode
    | CountryName | Continent | CountryRegion | CountrySurfaceArea | Languages

  datatype RecordValue =
    | IntValue(i: Int32)
    | StringValue(t: string)
    | DecimalValue(d: Countries.Decimal)
    | ContinentValue(k: Continents.Continent)
    | LanguageSet(ls: set<Language>)

  /** The Java type of the setter's parameter admits `v`. */
  predicate Fits(f: RecordField, v: RecordValue) {
    match f
    case Id | Population => v.IntValue?
    case Name | District | CountryCode | AlternativeCountryCode | CountryName | CountryRegion => v.StringValue?
    case Continent => v.ContinentValue?
    case CountrySurfaceArea => v.DecimalValue?
    case Languages => v.LanguageSet?
  }

  function Read(r: CityCountry, f: RecordField): (v: RecordValue)
    ensures Fits(f, v)
  {
    match f
    case Id => IntValue(r.id)
    case Name => StringValue(r.name)
    case District => StringValue(r.district)
    case Population => IntValue(r.population)
    case CountryCode => StringValue(r.countryCode)
    case AlternativeCountryCode => StringValue(r.alternativeCountryCode)
    case CountryName => StringValue(r.countryName)
    case Continent => ContinentValue(r.continent)
    case CountryRegion => StringValue(r.countryRegion)
    case CountrySurfaceArea => DecimalValue(r.countrySurfaceArea)
    case Languages => LanguageSet(r.languages)
  }

  /** The setter of property `f`: afterwards `Read(_, f)` is `v` and every
      other property is as before. */
  function Assign(r: CityCountry, f: RecordField, v: RecordValue): (r': CityCountry)
    requires Fits(f, v)
    ensures Read(r', f) == v
    ensures forall g :: g != f ==> Read(r', g) == Read(r, g)
  {
    match f
    case Id => r.(id := v.i)
    case Name => r.(name := v.t)
    case District => r.(district := v.t)
    case Population => r.(population := v.i)
    case CountryCode => r.(countryCode := v.t)
    case AlternativeCountryCode => r.(alternativeCountryCode := v.t)
    case CountryName => r.(countryName := v.t)
    case Continent => r.(continent := v.k)
    case CountryRegion => r.(countryRegion := v.t)
    case CountrySurfaceArea => r.(countrySurfaceArea := v.d)
    case Languages => r.(languages := v.ls)
  }

  /** `new CityCountry()`. Java leaves every property `null`; the model puts
      placeholders there, which flattening overwrites, all of them. */
  const Blank: CityCountry :=
    CityCountry(0, "", "", 0, "", "", "", Continents.Asia, "", Countries.Decimal(0, 0), {})
}

=== FILE: city_dao.dfy ===
/** The three queries of `CityDAO` against a fixed snapshot of the city table.

    `rows` is the table in the order the unordered `select c from City c`
    returns it. The model assumes that every page query sees this one order:
    the query has no `order by`, and a transaction fixes the rows it sees,
    not their order.
 */
module CityDao {
  import opened Results
  import opened JavaInt
  import opened Cities

  function Min(a: int, b: int): int {
    if a <= b then a else b
  }

  /** `getItems(offset, count)`: `setFirstResult(offset)` then
      `setMaxResults(count)`; the query API rejects a negative value for either. */
  function GetItems(rows: seq<City>, offset: int, count: int): (r: Result<seq<City>>)
    ensures r.Ok? <==> offset >= 0 && count >= 0
    ensures r.Err? ==> r.error == IllegalArgument
    ensures r.Ok? ==> |r.value| <= count
    ensures r.Ok? && offset >= |rows| ==> r.value == []
    ensures r.Ok? && offset < |rows| ==> |r.value| == Min(count, |rows| - offset)
    ensures r.Ok? ==> forall j :: 0 <= j < |r.value| ==> r.value[j] == rows[offset + j]
  {
    if offset < 0 || count < 0 then Err(IllegalArgument)
    else if offset >= |rows| then Ok([])
    else Ok(rows[offset..Min(offset + count, |rows|)])
  }

  /** `getTotalCount()`: the row count (a `long`) narrowed by `Math.toIntExact`. */
  function GetTotalCount(rows: seq<City>): (r: Result<Int32>)
    ensures r.Ok? <==> |rows| <= IntMax
    ensures r.Ok? ==> r.value as int == |rows|
    ensures r.Err? ==> r.error == ArithmeticOverflow
  {
    ToIntExact(|rows|)
  }

  /** The rows the `where c.id = :ID` clause selects, in table order. */
  function Matching(rows: seq<City>, id: Int32): (r: seq<City>)
    ensures forall c :: c in r <==> c in rows && c.id == id
    decreases |rows|
  {
    if rows == [] then []
    else
      var rest := Matching(rows[1..], id);
      if rows[0].id == id then [rows[0]] + rest else rest
  }

  /** How many rows match, in terms of indices: none, or at least two. */
  lemma {:induction false} MatchingCount(rows: seq<City>, id: Int32)
    ensures |Matching(rows, id)| == 0 <==> forall k :: 0 <= k < |rows| ==> rows[k].id != id
    ensures |Matching(rows, id)| >= 2 <==> TwoWithId(rows, id)
    decreases |rows|
  {
    if rows != [] {
      MatchingCount(rows[1..], id);
      HasIdShift(rows, id);
      if TwoWithId(rows, id) {
        TwoIdsShiftDown(rows, id);
      }
      if |Matching(rows, id)| >= 2 {
        TwoIdsShiftUp(rows, id);
      }
    }
  }

  /** Some row of `rows` has the id iff its head or some row of its tail has it. */
  lemma HasIdShift(rows: seq<City>, id: Int32)
    requires |rows| > 0
    ensures (exists k :: 0 <= k < |rows| && rows[k].id == id)
        <==> rows[0].id == id || exists k :: 0 <= k < |rows[1..]| && rows[1..][k].id == id
  {
    var tail := rows[1..];
    if exists k :: 0 <= k < |rows| && rows[k].id == id {
      var k :| 0 <= k < |rows| && rows[k].id == id;
      if k > 0 {
        assert tail[k - 1].id == id;
      }
    }
    if exists k :: 0 <= k < |tail| && tail[k].id == id {
      var k :| 0 <= k < |tail| && tail[k].id == id;
      assert rows[k + 1].id == id;
    }
  }

  predicate TwoWithId(rows: seq<City>, id: Int32) {
    exists i, j :: 0 <= i < j < |rows| && rows[i].id == id && rows[j].id == id
  }

  /** Two rows have the id: then the head and a tail row have it, or two tail rows do. */
  lemma TwoIdsShiftDown(rows: seq<City>, id: Int32)
    requires |rows| > 0
    requires TwoWithId(rows, id)
    ensures (rows[0].id == id && exists k :: 0 <= k < |rows[1..]| && rows[1..][k].id == id)
            || TwoWithId(rows[1..], id)
  {
    var tail := rows[1..];
    var i, j :| 0 <= i < j < |rows| && rows[i].id == id && rows[j].id == id;
    if i > 0 {
      assert tail[i - 1].id == id && tail[j - 1].id == id;
    } else {
      assert tail[j - 1].id == id;
    }
  }

  /** The converse of `TwoIdsShiftDown`. */
  lemma TwoIdsShiftUp(rows: seq<City>, id: Int32)
    requires |rows| > 0
    requires (rows[0].id == id && exists k :: 0 <= k < |rows[1..]| && rows[1..][k].id == id)
             || TwoWithId(rows[1..], id)
    ensures TwoWithId(rows, id)
  {
    var tail := rows[1..];
    if TwoWithId(tail, id) {
      var i, j :| 0 <= i < j < |tail| && tail[i].id == id && tail[j].id == id;
      assert rows[i + 1].id == id && rows[j + 1].id == id;
    } else {
      var k :| 0 <= k < |tail| && tail[k].id == id;
      assert rows[k + 1].id == id;
    }
  }

  /** `getById(id)`: `getSingleResult` of the join-fetch query: the one
      matching row, whose country the join has populated. */
  function GetById(rows: seq<City>, id: Int32): (r: Result<City>)
    ensures r.Ok? ==> r.value in rows && r.value.id == id
  {
    var found := Matching(rows, id);
    if |found| == 0 then Err(NoResult)
    else if |found| >= 2 then Err(NonUniqueResult)
    else Ok(found[0])
  }

  /** The outcomes of `getById`: `NoResultException` exactly when no row has
      the id, `NonUniqueResultException` exactly when several do, and no
      other failure. */
  lemma GetByIdOutcomes(rows: seq<City>, id: Int32)
    ensures GetById(rows, id) == Err(NoResult) <==> forall k :: 0 <= k < |rows| ==> rows[k].id != id
    ensures GetById(rows, id) == Err(NonUniqueResult) <==> TwoWithId(rows, id)
    ensures GetById(rows, id).Err? ==> GetById(rows, id).error in {NoResult, NonUniqueResult}
  {
    MatchingCount(rows, id);
  }

  /** On a table with a primary key, every row is found by its own id. */
  lemma GetByIdFindsRow(rows: seq<City>, k: int)
    requires UniqueIds(rows)
    requires 0 <= k < |rows|
    ensures GetById(rows, rows[k].id) == Ok(rows[k])
  {
    var r := GetById(rows, rows[k].id);
    GetByIdOutcomes(rows, rows[k].id);
    assert r != Err(NoResult);
    assert r != Err(NonUniqueResult);
    var m :| 0 <= m < |rows| && rows[m] == r.value;
  }
}

=== FILE: continent.dfy ===
/** The `Continent` enum of the domain model.

    Its declaration order is part of the storage contract: `Country.continent`
    is persisted with `EnumType.ORDINAL`, so the column holds the position of
    the variant in `Declared`. Each variant also carries a label string.
 */
module Continents {
  import opened Results
  import Text

  datatype Continent =
    | Asia
    | Europe
    | NorthAmerica
    | Africa
    | Oceania
    | Antarctica
    | SouthAmerica

  /** The variants in declaration order. */
  const Declared: seq<Continent> :=
    [Asia, Europe, NorthAmerica, Africa, Oceania, Antarctica, SouthAmerica]

  /** `Enum.ordinal()`: the declaration position, hence the persisted value. */
  function Ordinal(c: Continent): (r: nat)
    ensures r < |Declared|
    ensures Declared[r] == c
  {
    match c
    case Asia => 0
    case Europe => 1
    case NorthAmerica => 2
    case Africa => 3
    case Oceania => 4
    case Antarctica => 5
    case SouthAmerica => 6
  }

  /** Reading a persisted ordinal back: defined exactly on 0..6. */
  function FromOrdinal(n: int): (r: Option<Continent>)
    ensures r.Some? <==> 0 <= n < 7
    ensures r.Some? ==> Ordinal(r.value) == n
  {
    if 0 <= n < |Declared| then Some(Declared[n]) else None
  }

  /** Encoding then decoding an ordinal gives back the variant. */
  lemma OrdinalRoundTrip(c: Continent)
    ensures FromOrdinal(Ordinal(c)) == Some(c)
  {
  }

  /** There are exactly seven variants, each at exactly one position. */
  lemma DeclaredIsEnumeration()
    ensures |Declared| == 7
    ensures forall c: Continent :: c in Declared
    ensures forall i, j :: 0 <= i < j < |Declared| ==> Declared[i] != Declared[j]
  {
    forall c: Continent ensures c in Declared {
      assert Declared[Ordinal(c)] == c;
    }
  }

  /** `getValue()`: the label given to the variant's constructor. */
  function Value(c: Continent): (s: string)
    ensures |s| >= 3
    ensures s[0] == Text.DigitChar(Ordinal(c))
    ensures c == Europe ==> s[1..3] == "E-"
    ensures c != Europe ==> s[1] == '-'
  {
    match c
    case Asia => "0-ASIA"
    case Europe =>
      assert "1E-EUROPE"[1..3] == "E-";
      "1E-EUROPE"
    case NorthAmerica => "2-NORTH_AMERICA"
    case Africa => "3-AFRICA"
    case Oceania => "4-OCEANIA"
    case Antarctica => "5-ANTARCTICA"
    case SouthAmerica => "6-SOUTH_AMERICA"
  }

  /** Labels are pairwise distinct: the leading digit already tells them apart. */
  lemma ValueInjective(c: Continent, d: Continent)
    requires Value(c) == Value(d)
    ensures c == d
  {
    assert Text.DigitValue(Value(c)[0]) == Ordinal(c);
    assert Text.DigitValue(Value(d)[0]) == Ordinal(d);
  }
}

=== FILE: country.dfy ===
/** The `Country` entity and the rows it owns.

    A `Country` value is one row of the `world.country` table with its
    languages eagerly attached. The class's seventeen getter/setter pairs are
    modelled once, as a lens: `Get(c, f)` reads field `f`, `Set(c, f, v)` is
    the setter, and the lens laws below are what each pair promises.
 */
module Countries {
  import opened Results
  import opened JavaInt
  import Continents

  /** `BigDecimal`: unscaled value and scale. Equality compares both, as
      `BigDecimal.equals` does (2.0 and 2.00 differ). Only ever copied. */
  datatype Decimal = Decimal(unscaled: int, scale: Int32)

  /** A row of the country's language table, reduced to the accessors the job reads. */
  datatype CountryLanguage = CountryLanguage(language: string, official: bool, percentage: Decimal)

  datatype Country = Country(
    id: Int32,
    code: string,
    anotherCode: string,
    name: string,
    continent: Continents.Continent,
    region: string,
    surfaceArea: Decimal,
    independenceYear: Int16,
    population: Int32,
    lifeExpectancy: Decimal,
    gnp: Decimal,
    gnpoId: Decimal,
    localName: string,
    governmentForm: string,
    headOfState: string,
    capital: Option<Int32>,   // the lazily loaded capital `City`, by id
    languages: set<CountryLanguage>)

  /** The seventeen properties of the class, one per getter/setter pair. */
  datatype CountryField =
    | Id | Code | AnotherCode | Name | Continent | Region | SurfaceArea
    | IndependenceYear | Population | LifeExpectancy | Gnp | GnpoId
    | LocalName | GovernmentForm | HeadOfState | Capital | Languages

  /** A value of one of the property types, as a getter returns it. */
  datatype FieldValue =
    | IntValue(i: Int32)
    | ShortValue(h: Int16)
    | StringValue(t: string)
    | DecimalValue(d: Decimal)
    | ContinentValue(k: Continents.Continent)
    | CityRef(ref: Option<Int32>)
    | LanguageSet(ls: set<CountryLanguage>)

  /** The Java type of the setter's parameter admits `v`. */
  predicate Fits(f: CountryField, v: FieldValue) {
    match f
    case Id | Population => v.IntValue?
    case IndependenceYear => v.ShortValue?
    case Code | AnotherCode | Name | Region | LocalName | GovernmentForm | HeadOfState => v.StringValue?
    case SurfaceArea | LifeExpectancy | Gnp | GnpoId => v.DecimalValue?
    case Continent => v.ContinentValue?
    case Capital => v.CityRef?
    case Languages => v.LanguageSet?
  }

  /** The getter of property `f`. */
  function Get(c: Country, f: CountryField): (v: FieldValue)
    ensures Fits(f, v)
  {
    match f
    case Id => IntValue(c.id)
    case Code => StringValue(c.code)
    case AnotherCode => StringValue(c.anotherCode)
    case Name => StringValue(c.name)
    case Continent => ContinentValue(c.continent)
    case Region => StringValue(c.region)
    case SurfaceArea => DecimalValue(c.surfaceArea)
    case IndependenceYear => ShortValue(c.independenceYear)
    case Population => IntValue(c.population)
    case LifeExpectancy => DecimalValue(c.lifeExpectancy)
    case Gnp => DecimalValue(c.gnp)
    case GnpoId => DecimalValue(c.gnpoId)
    case LocalName => StringValue(c.localName)
    case GovernmentForm => StringValue(c.governmentForm)
    case HeadOfState => StringValue(c.headOfState)
    case Capital => CityRef(c.capital)
    case Languages => LanguageSet(c.languages)
  }

  /** The setter of property `f`: afterwards its getter returns `v` and
      every other getter returns what it returned before. */
  function Set(c: Country, f: CountryField, v: FieldValue): (r: Country)
    requires Fits(f, v)
    ensures Get(r, f) == v
    ensures forall g :: g != f ==> Get(r, g) == Get(c, g)
  {
    match f
    case Id => c.(id := v.i)
    case Code => c.(code := v.t)
    case AnotherCode => c.(anotherCode := v.t)
    case Name => c.(name := v.t)
    case Continent => c.(continent := v.k)
    case Region => c.(region := v.t)
    case SurfaceArea => c.(surfaceArea := v.d)
    case IndependenceYear => c.(independenceYear := v.h)
    case Population => c.(population := v.i)
    case LifeExpectancy => c.(lifeExpectancy := v.d)
    case Gnp => c.(gnp := v.d)
    case GnpoId => c.(gnpoId := v.d)
    case LocalName => c.(localName := v.t)
    case GovernmentForm => c.(governmentForm := v.t)
    case HeadOfState => c.(headOfState := v.t)
    case Capital => c.(capital := v.ref)
    case Languages => c.(languages := v.ls)
  }

  /** Two countries that agree on every getter are the same country. */
  lemma Extensional(a: Country, b: Country)
    requires forall f :: Get(a, f) == Get(b, f)
    ensures a == b
  {
    assert a.id == b.id by { assert Get(a, Id) == Get(b, Id); }
    assert a.code == b.code by { assert Get(a, Code) == Get(b, Code); }
    assert a.anotherCode == b.anotherCode by { assert Get(a, AnotherCode) == Get(b, AnotherCode); }
    assert a.name == b.name by { assert Get(a, Name) == Get(b, Name); }
    assert a.continent == b.continent by { assert Get(a, Continent) == Get(b, Continent); }
    assert a.region == b.region by { assert Get(a, Region) == Get(b, Region); }
    assert a.surfaceArea == b.surfaceArea by { assert Get(a, SurfaceArea) == Get(b, SurfaceArea); }
    assert a.independenceYear == b.independenceYear by { assert Get(a, IndependenceYear) == Get(b, IndependenceYear); }
    assert a.population == b.population by { assert Get(a, Population) == Get(b, Population); }
    assert a.lifeExpectancy == b.lifeExpectancy by { assert Get(a, LifeExpectancy) == Get(b, LifeExpectancy); }
    assert a.gnp == b.gnp by { assert Get(a, Gnp) == Get(b, Gnp); }
    assert a.gnpoId == b.gnpoId by { assert Get(a, GnpoId) == Get(b, GnpoId); }
    assert a.localName == b.localName by { assert Get(a, LocalName) == Get(b, LocalName); }
    assert a.governmentForm == b.governmentForm by { assert Get(a, GovernmentForm) == Get(b, GovernmentForm); }
    assert a.headOfState == b.headOfState by { assert Get(a, HeadOfState) == Get(b, HeadOfState); }
    assert a.capital == b.capital by { assert Get(a, Capital) == Get(b, Capital); }
    assert a.languages == b.languages by { assert Get(a, Languages) == Get(b, Languages); }
  }

  /** Setting a property to what its getter returns changes nothing. */
  lemma SetGet(c: Country, f: CountryField)
    ensures Set(c, f, Get(c, f)) == c
  {
    Extensional(Set(c, f, Get(c, f)), c);
  }

  /** Of two calls to the same setter, the later one wins. */
  lemma SetSet(c: Country, f: CountryField, v: FieldValue, w: FieldValue)
    requires Fits(f, v) && Fits(f, w)
    ensures Set(Set(c, f, v), f, w) == Set(c, f, w)
  {
    Extensional(Set(Set(c, f, v), f, w), Set(c, f, w));
  }

  /** Setters of different properties commute. */
  lemma SetCommutes(c: Country, f: CountryField, v: FieldValue, g: CountryField, w: FieldValue)
    requires Fits(f, v) && Fits(g, w) && f != g
    ensures Set(Set(c, f, v), g, w) == Set(Set(c, g, w), f, v)
  {
    Extensional(Set(Set(c, f, v), g, w), Set(Set(c, g, w), f, v));
  }

  /** The value of the `continent` column: the ordinal of the variant, which
      reads back as the same variant. */
  function ContinentColumn(c: Country): (n: int)
    ensures 0 <= n < 7
    ensures Continents.FromOrdinal(n) == Some(c.continent)
  {
    Continents.Ordinal(c.continent)
  }
}

=== FILE: denormalize.dfy ===
/** `Main.transformData`: every city becomes one self-contained `CityCountry`.

    `FlattenOnto` replays the setter calls of the mapping lambda in source
    order, starting from a given record; its contract says which source field
    each property ends up holding. Since every property is written, the
    starting record does not matter.
 */
module Denormalize {
  import Countries
  import opened Cities
  import opened CacheRecords

  /** The inner lambda: one country-language row to one `Language`. */
  function LanguageOf(cl: Countries.CountryLanguage): Language {
    Language(cl.language, cl.official, cl.percentage)
  }

  /** The inner stream collected with `Collectors.toSet()`. */
  function LanguagesOf(s: set<Countries.CountryLanguage>): (r: set<Language>)
    ensures forall cl :: cl in s ==> LanguageOf(cl) in r
    ensures forall l :: l in r ==> exists cl :: cl in s && LanguageOf(cl) == l
  {
    set cl | cl in s :: LanguageOf(cl)
  }

  /** No two rows collapse: the three copied fields are all a row holds here,
      so the language set has exactly as many entries as the country has rows. */
  lemma {:induction false} LanguagesOfSize(s: set<Countries.CountryLanguage>)
    ensures |LanguagesOf(s)| == |s|
    decreases |s|
  {
    if s != {} {
      var x :| x in s;
      var rest := s - {x};
      LanguagesOfSize(rest);
      assert LanguagesOf(s) == LanguagesOf(rest) + {LanguageOf(x)};
      assert LanguageOf(x) !in LanguagesOf(rest);
    }
  }

  /** The mapping lambda, applied to the record `res` instead of a fresh one:
      the setters run in the order the code calls them. */
  function FlattenOnto(res: CityCountry, city: City): (r: CityCountry)
    ensures r.id == city.id
    ensures r.name == city.name
    ensures r.district == city.district
    ensures r.population == city.country.population
    ensures r.countryCode == city.country.code
    ensures r.alternativeCountryCode == city.country.anotherCode
    ensures r.countryName == city.country.name
    ensures r.continent == city.country.continent
    ensures r.countryRegion == city.country.region
    ensures r.countrySurfaceArea == city.country.surfaceArea
    ensures r.languages == LanguagesOf(city.country.languages)
  {
    var res := Assign(res, Id, IntValue(city.id));
    var res := Assign(res, Name, StringValue(city.name));
    var res := Assign(res, Population, IntValue(city.population));
    var res := Assign(res, District, StringValue(city.district));
    var country := city.country;
    var res := Assign(res, AlternativeCountryCode, StringValue(country.anotherCode));
    var res := Assign(res, Continent, ContinentValue(country.continent));
    var res := Assign(res, CountryCode, StringValue(country.code));
    var res := Assign(res, CountryName, StringValue(country.name));
    var res := Assign(res, Population, IntValue(country.population));
    var res := Assign(res, CountrySurfaceArea, DecimalValue(country.surfaceArea));
    var res := Assign(res, CountryRegion, StringValue(country.region));
    var languages := LanguagesOf(country.languages);
    Assign(res, Languages, LanguageSet(languages))
  }

  /** The record the mapping is meant to build, field by field: city fields
      from the city, country fields from its country, and the country's
      population in the single `population` property. */
  function Flatten(city: City): CityCountry {
    var country := city.country;
    CityCountry(
      id := city.id,
      name := city.name,
      district := city.district,
      population := country.population,
      countryCode := country.code,
      alternativeCountryCode := country.anotherCode,
      countryName := country.name,
      continent := country.continent,
      countryRegion := country.region,
      countrySurfaceArea := country.surfaceArea,
      languages := LanguagesOf(country.languages))
  }

  /** The setter sequence builds exactly `Flatten(city)`, whatever record it
      starts from: every property is written, and the later `setPopulation`
      is the one that sticks. */
  lemma SettersBuildFlatten(start: CityCountry, city: City)
    ensures FlattenOnto(start, city) == Flatten(city)
  {
  }

  /** The city's own population never reaches the record: the second
      `setPopulation` call replaces it with the country's. */
  lemma CityPopulationOverwritten(start: CityCountry, city: City)
    requires city.population != city.country.population
    ensures FlattenOnto(start, city).population != city.population
  {
  }

  /** `cities.stream().map(...).collect(Collectors.toList())`. */
  function TransformData(cities: seq<City>): (r: seq<CityCountry>)
    ensures |r| == |cities|
    ensures forall k :: 0 <= k < |r| ==> r[k] == Flatten(cities[k])
    decreases |cities|
  {
    if cities == [] then [] else [Flatten(cities[0])] + TransformData(cities[1..])
  }

  /** Each record of `transformData` is what the setter calls leave on a
      `new CityCountry()`. */
  lemma TransformDataFromFresh(cities: seq<City>, k: int)
    requires 0 <= k < |cities|
    ensures TransformData(cities)[k] == FlattenOnto(Blank, cities[k])
  {
    SettersBuildFlatten(Blank, cities[k]);
  }

  /** Flattening is page-wise: transforming a concatenation is concatenating
      the transforms. */
  lemma TransformDataAppend(a: seq<City>, b: seq<City>)
    ensures TransformData(a + b) == TransformData(a) + TransformData(b)
  {
  }

  /** The record list carries the city ids in order, so ids stay unique. */
  lemma TransformKeepsIds(cities: seq<City>)
    requires UniqueIds(cities)
    ensures forall i, j :: 0 <= i < j < |cities| ==> TransformData(cities)[i].id != TransformData(cities)[j].id
  {
  }
}

=== FILE: java_int.dfy ===
/** Java's fixed-width integers, written out explicitly.

    Dafny's `int` is unbounded; the Java code works on 32-bit `int`/`Integer`
    and 16-bit `Short`. Values stored in entities use the newtypes below, and
    the one place where the code does arithmetic on an `int` (the paging
    counter) uses `Wrap` for two's-complement wrap-around.
 */
module JavaInt {
  import opened Results

  const IntMin: int := -0x8000_0000
  const IntMax: int := 0x7fff_ffff
  const Modulus: int := 0x1_0000_0000

  newtype Int32 = x: int | -0x8000_0000 <= x <= 0x7fff_ffff
  newtype Int16 = x: int | -0x8000 <= x <= 0x7fff

  predicate InIntRange(x: int) {
    IntMin <= x <= IntMax
  }

  /** `Math.toIntExact(long)`: the same value when it fits an `int`,
      an `ArithmeticException` otherwise (never a truncated value). */
  function ToIntExact(x: int): (r: Result<Int32>)
    ensures r.Ok? <==> InIntRange(x)
    ensures r.Ok? ==> r.value as int == x
    ensures r.Err? ==> r.error == ArithmeticOverflow
  {
    if InIntRange(x) then Ok(x as Int32) else Err(ArithmeticOverflow)
  }

  /** The `int` a Java expression of mathematical value `x` evaluates to:
      the unique value in range congruent to `x` modulo 2^32. */
  function Wrap(x: int): (r: int)
    ensures InIntRange(r)
    ensures (x - r) % Modulus == 0
    ensures InIntRange(x) ==> r == x
  {
    (x - IntMin) % Modulus + IntMin
  }

  /** Past the top of the range by less than 2^32, the sum comes out
      exactly 2^32 lower, hence negative whenever the excess is below 2^31. */
  lemma WrapAboveMax(x: int)
    requires IntMax < x <= IntMax + Modulus
    ensures Wrap(x) == x - Modulus
  {
  }
}

=== FILE: pagination.dfy ===
/** The extraction loop of `Main.fetchData`.

    The job asks for the row count once, then requests pages of `PageSize`
    rows at offsets 0, 500, 1000, ... while the offset is below the count,
    appending every page to one list.

    `FetchPages` is that loop with a counter that cannot overflow; it returns
    the whole table. `FetchFromAsWritten` keeps the counter a Java `int`, as
    the code declares it: for a count above `LastSafeCount` the final
    `i += 500` wraps to a negative offset, which the next page request rejects.
 */
module Pagination {
  import opened Results
  import opened JavaInt
  import opened Cities
  import opened CityDao

  const PageSize: int := 500

  /** Largest count for which the `int` counter never passes `IntMax`:
      the last multiple of 500 not above `IntMax`. */
  const LastSafeCount: int := 2147483500

  /** The paging loop for any positive page size: returns the table in order,
      after exactly ceil(total / step) page requests. */
  method FetchPages(rows: seq<City>, step: int) returns (all: seq<City>, requests: nat)
    requires step > 0
    ensures all == rows
    ensures requests * step >= |rows|
    ensures requests > 0 ==> (requests - 1) * step < |rows|
  {
    var total := |rows|;
    all := [];
    requests := 0;
    var i := 0;
    while i < total
      invariant 0 <= i
      invariant i == requests * step
      invariant requests > 0 ==> (requests - 1) * step < total
      invariant i < total ==> all == rows[..i]
      invariant i >= total ==> all == rows
    {
      var page := GetItems(rows, i, step).value;
      assert page == rows[i..Min(i + step, total)];
      all := all + page;
      assert all == rows[..Min(i + step, total)];
      requests := requests + 1;
      i := i + step;
    }
  }

  /** `fetchData`: the count, then the loop with 500-row pages. Fails only when
      the count does not fit an `int`. */
  method FetchData(rows: seq<City>) returns (r: Result<seq<City>>, requests: nat)
    ensures r.Ok? <==> |rows| <= IntMax
    ensures r.Err? ==> r.error == ArithmeticOverflow
    ensures r.Ok? ==> r.value == rows
    ensures r.Ok? ==> requests == (|rows| + PageSize - 1) / PageSize
  {
    var total := GetTotalCount(rows);
    if total.Err? {
      return Err(total.error), 0;
    }
    var all;
    all, requests := FetchPages(rows, PageSize);
    r := Ok(all);
  }

  /** The Java value of `i += 500` for a non-negative `int` counter. */
  lemma NextOffset(i: int)
    requires 0 <= i <= IntMax
    ensures Wrap(i + PageSize) == if i + PageSize <= IntMax then i + PageSize else i + PageSize - Modulus
  {
    if i + PageSize > IntMax {
      WrapAboveMax(i + PageSize);
    }
  }

  /** The loop from offset `i` on, with `i` a Java `int` and `i += 500`
      wrapping as Java evaluates it. */
  function FetchFromAsWritten(rows: seq<City>, i: int): (r: Result<seq<City>>)
    requires InIntRange(i)
    requires |rows| <= IntMax
    ensures r.Err? ==> r.error == IllegalArgument
    ensures r.Ok? ==> 0 <= i && r.value == rows[Min(i, |rows|)..]
    decreases if 0 <= i < |rows| then |rows| - i + 1 else 0
  {
    if i >= |rows| then Ok([])
    else match GetItems(rows, i, PageSize)
      case Err(e) => Err(e)
      case Ok(page) =>
        NextOffset(i);
        match FetchFromAsWritten(rows, Wrap(i + PageSize))
        case Err(e) => Err(e)
        case Ok(rest) => Ok(page + rest)
  }

  /** `fetchData` as written: the count, then the `int`-counter loop. */
  function FetchDataAsWritten(rows: seq<City>): (r: Result<seq<City>>)
    ensures GetTotalCount(rows).Err? ==> r == Err(ArithmeticOverflow)
    ensures r.Ok? ==> r.value == rows
  {
    match GetTotalCount(rows)
    case Err(e) => Err(e)
    case Ok(total) => FetchFromAsWritten(rows, 0)
  }

  /** Up to `LastSafeCount` rows the `int` counter never wraps, and the
      as-written loop returns the rest of the table from offset `i`. */
  lemma {:induction false} AsWrittenFromBelowLimit(rows: seq<City>, i: int)
    requires |rows| <= LastSafeCount
    requires 0 <= i <= IntMax && i % PageSize == 0
    ensures FetchFromAsWritten(rows, i) == Ok(rows[Min(i, |rows|)..])
    decreases |rows| - i
  {
    if i < |rows| {
      NextOffset(i);
      AsWrittenFromBelowLimit(rows, i + PageSize);
      // the page followed by the rest of the table is the table from i
      assert rows[i..Min(i + PageSize, |rows|)] + rows[Min(i + PageSize, |rows|)..] == rows[i..];
    }
  }

  /** Above `LastSafeCount` rows, the page at offset `LastSafeCount` is fetched,
      `i += 500` wraps to a negative offset that is still below the count, and
      the next page request fails. */
  lemma {:induction false} AsWrittenFromAboveLimit(rows: seq<City>, i: int)
    requires LastSafeCount < |rows| <= IntMax
    requires 0 <= i <= LastSafeCount && i % PageSize == 0
    ensures FetchFromAsWritten(rows, i) == Err(IllegalArgument)
    decreases LastSafeCount - i
  {
    NextOffset(i);
    if i < LastSafeCount {
      AsWrittenFromAboveLimit(rows, i + PageSize);
    } else {
      var next := Wrap(i + PageSize);
      assert next == LastSafeCount + PageSize - Modulus < 0;
      assert FetchFromAsWritten(rows, next) == Err(IllegalArgument);
    }
  }

  /** Where the counter cannot wrap, `fetchData` as written returns the table. */
  lemma AsWrittenAgrees(rows: seq<City>)
    requires |rows| <= LastSafeCount
    ensures FetchDataAsWritten(rows) == Ok(rows)
  {
    AsWrittenFromBelowLimit(rows, 0);
  }

  /** The counterexample: with a count in (LastSafeCount, IntMax], which
      `getTotalCount` accepts, `fetchData` as written fails instead of
      returning the table (`FetchData` returns it for every such count). */
  lemma AsWrittenWraps(rows: seq<City>)
    requires LastSafeCount < |rows| <= IntMax
    ensures GetTotalCount(rows).Ok?
    ensures FetchDataAsWritten(rows) == Err(IllegalArgument)
  {
    AsWrittenFromAboveLimit(rows, 0);
  }
}

=== FILE: pipeline.dfy ===
/** `Main.main`: fetch every city, flatten them, write them to the cache, then
    run the cache lookups and the table lookups over the benchmark ids.

    The timing around the two lookup loops is left out; what remains is the
    order of the stages and what each leaves behind. The end-to-end lemmas say
    what the cache holds after the write stage.
 */
module Pipeline {
  import opened Results
  import opened JavaInt
  import opened Cities
  import opened CityDao
  import opened Pagination
  import opened Denormalize
  import opened CacheWriter
  import opened Benchmark

  /** What the two benchmark loops produced. */
  datatype Lookups = Lookups(cacheGets: seq<string>, cacheResults: seq<Lookup>, sourceResults: seq<City>)

  /** The run: `stored` is the cache afterwards (writes are not undone when a
      later stage fails); `outcome` is the first failure or the lookups. */
  method Run(rows: seq<City>, store: Store, encode: Encoder, decode: Decoder, ids: seq<Int32>)
    returns (stored: Store, outcome: Result<Lookups>)
    ensures |rows| > IntMax ==> stored == store && outcome == Err(ArithmeticOverflow)
    ensures |rows| <= IntMax ==> stored == PushAll(store, TransformData(rows), encode)
    ensures outcome.Ok? ==> outcome.value.cacheGets == KeysOf(ids)
    ensures outcome.Ok? ==> |outcome.value.cacheResults| == |ids| && |outcome.value.sourceResults| == |ids|
    ensures outcome.Ok? ==> forall k :: 0 <= k < |ids| ==> outcome.value.sourceResults[k].id == ids[k]
    ensures |rows| <= IntMax && outcome.Err? ==> !AllStored(stored, ids) || exists k :: 0 <= k < |ids| && GetById(rows, ids[k]).Err?
    ensures |rows| <= IntMax ==>
      (outcome.Ok? <==> AllStored(stored, ids) && forall k :: 0 <= k < |ids| ==> GetById(rows, ids[k]).Ok?)
  {
    var fetched, requests := FetchData(rows);
    if fetched.Err? {
      return store, Err(fetched.error);
    }
    var records := TransformData(fetched.value);
    stored := PushToRedis(store, records, encode);
    var gets, cache := TestRedisData(stored, ids, decode);
    if cache.Err? {
      return stored, Err(cache.error);
    }
    var source := TestMysqlData(rows, ids);
    if source.Err? {
      return stored, Err(source.error);
    }
    outcome := Ok(Lookups(gets, cache.value, source.value));
  }

  /** `main` itself runs with the ten fixed ids: ten lookups in each store. */
  method RunBenchmark(rows: seq<City>, store: Store, encode: Encoder, decode: Decoder)
    returns (stored: Store, outcome: Result<Lookups>)
    ensures |rows| <= IntMax ==> stored == PushAll(store, TransformData(rows), encode)
    ensures outcome.Ok? ==> |outcome.value.cacheGets| == 10 && |outcome.value.sourceResults| == 10
  {
    stored, outcome := Run(rows, store, encode, decode, BenchmarkIds);
  }

  /** After the write stage, on a table with a primary key, the key of every
      city whose record encodes holds that record's encoding. */
  lemma CacheHoldsEveryCity(rows: seq<City>, store: Store, encode: Encoder, k: int)
    requires UniqueIds(rows)
    requires 0 <= k < |rows|
    requires encode(Flatten(rows[k])).Some?
    ensures Key(rows[k].id) in PushAll(store, TransformData(rows), encode)
    ensures PushAll(store, TransformData(rows), encode)[Key(rows[k].id)] == encode(Flatten(rows[k])).value
  {
    var records := TransformData(rows);
    TransformKeepsIds(rows);
    assert LastWrite(records, encode, k);
    PushAllLastWriteWins(store, records, encode, k);
  }

  /** With a decoder that inverts the encoder, a cache lookup of any city id
      decodes to exactly the flattened record of that city. */
  lemma CacheLookupRoundTrip(rows: seq<City>, store: Store, encode: Encoder, decode: Decoder, k: int)
    requires UniqueIds(rows)
    requires 0 <= k < |rows|
    requires encode(Flatten(rows[k])).Some?
    requires forall r :: encode(r).Some? ==> decode(encode(r).value) == Some(r)
    ensures Key(rows[k].id) in PushAll(store, TransformData(rows), encode)
    ensures DecodeOutcome(decode, PushAll(store, TransformData(rows), encode)[Key(rows[k].id)])
         == Decoded(Flatten(rows[k]))
  {
    CacheHoldsEveryCity(rows, store, encode, k);
  }
}

=== FILE: results.dfy ===
/** Failure-carrying results for the operations of the transfer job.

    Each `Failure` variant stands for one exception the modelled Java code lets
    escape; the job has no retry, so an `Err` aborts whatever stage produced it.
 */
module Results {

  datatype Option<+T> = None | Some(value: T)

  datatype Failure =
    | ArithmeticOverflow   // Math.toIntExact on a count outside `int`
    | NoResult             // getSingleResult when no row matches
    | NonUniqueResult      // getSingleResult when several rows match
    | IllegalArgument      // negative first-result / max-results, or readValue(null, ...)

  datatype Result<+T> = Ok(value: T) | Err(error: Failure)
}

=== FILE: text.dfy ===
/** Decimal text of integers, as `String.valueOf(int)` produces it.

    The cache key of a record is the decimal string of its id, so two ids
    must never share a key: that follows from `ParseInt` inverting `IntToString`.
 */
module Text {
  import opened Results

  predicate IsDigit(c: char) {
    '0' <= c <= '9'
  }

  predicate AllDigits(s: string) {
    forall k :: 0 <= k < |s| ==> IsDigit(s[k])
  }

  function DigitChar(d: nat): (c: char)
    requires d < 10
    ensures IsDigit(c)
    ensures DigitValue(c) == d
  {
    ('0' as int + d) as char
  }

  function DigitValue(c: char): nat
    requires IsDigit(c)
  {
    c as int - '0' as int
  }

  /** Decimal digits of `n`, most significant first, without leading zeros. */
  function NatDigits(n: nat): (s: string)
    ensures |s| >= 1
    ensures AllDigits(s)
    ensures |s| > 1 ==> s[0] != '0'
    decreases n
  {
    if n < 10 then [DigitChar(n)] else NatDigits(n / 10) + [DigitChar(n % 10)]
  }

  /** The number a string of decimal digits denotes (the empty string is 0). */
  function ParseDigits(s: string): nat
    requires AllDigits(s)
    decreases |s|
  {
    if |s| == 0 then 0 else ParseDigits(s[..|s| - 1]) * 10 + DigitValue(s[|s| - 1])
  }

  lemma {:induction false} ParseNatDigits(n: nat)
    ensures ParseDigits(NatDigits(n)) == n
    decreases n
  {
    if n >= 10 {
      var s := NatDigits(n);
      assert s[..|s| - 1] == NatDigits(n / 10);
      ParseNatDigits(n / 10);
    }
  }

  /** A decimal reader: an optional minus sign followed by at least one
      decimal digit, read as an unbounded integer. */
  function ParseInt(s: string): Option<int> {
    if |s| >= 2 && s[0] == '-' && AllDigits(s[1..]) then Some(0 - ParseDigits(s[1..]) as int)
    else if |s| >= 1 && AllDigits(s) then Some(ParseDigits(s) as int)
    else None
  }

  /** The number of characters the sign takes in the decimal form of `x`. */
  function SignWidth(x: int): nat {
    if x < 0 then 1 else 0
  }

  /** `String.valueOf(int)`: a minus sign exactly for negative values, then
      the digits of the magnitude without leading zeros. */
  function IntToString(x: int): (s: string)
    ensures ParseInt(s) == Some(x)
    ensures |s| >= 1
    ensures (x < 0) <==> s[0] == '-'
    ensures AllDigits(s[SignWidth(x)..])
    ensures |s| > SignWidth(x) + 1 ==> s[SignWidth(x)] != '0'
  {
    if x < 0 then
      ParseNatDigits(-x);
      var s := "-" + NatDigits(-x);
      assert s[1..] == NatDigits(-x);
      s
    else
      ParseNatDigits(x);
      NatDigits(x)
  }

  /** Distinct integers have distinct decimal strings. */
  lemma IntToStringInjective(a: int, b: int)
    requires IntToString(a) == IntToString(b)
    ensures a == b
  {
    assert Some(a) == ParseInt(IntToString(a)) == ParseInt(IntToString(b)) == Some(b);
  }
}
